=== FILE: README.md ===
# XtremePong game logic in Dafny

A model of the discrete rules of a two-paddle ball game built on a game
engine: the match coordinator that turns goals into scores, a win check and a
single delayed serve; the goal triggers that award the points; the card hands
and the card pickups the ball delivers to them; and the discrete and ordering
parts of the ball's paddle-contact rule (last hitter, aim clamp, horizontal
floor, capped speed ramp, hit-sound intensity).

Everything is a pure function over immutable records:

- `Basics` (basics.dfy): `Option`, the `Side` enum (`NoSide`, `Left`,
  `Right`) and the collider tags.
- `BallRules` (ball.dfy): the ball script. Engine scalars (`Sign`, `Clamp`,
  `InverseLerp`) keep the engine's tie-breaks (sign of zero is +1). A velocity
  the script assigns is a `Motion(aim, speed)`, meaning
  `aim.normalized * speed`; the square root stays abstract. The contact
  rule reads the velocity the rigidbody reports when the collision callback
  runs. That velocity already includes the engine's own contact response. It
  and its magnitude come from the engine, tied together by
  `speed * speed == x * x + y * y`.
- `Colliders` (colliders.dfy): the other collider of a trigger event, with its
  optional rigidbody and the ball script on it.
- `GameManager` (game_manager.dfy): scores as 32-bit integers with explicit
  two's-complement wrap-around. The delayed serve is `scheduled: Option<bool>`:
  scheduling replaces it, the win branch cancels it, firing consumes it. The
  fire reads `pendingServeToRight`, as the code does. The predicate
  `Consistent` says a pending serve goes in the direction recorded when it was
  scheduled; every operation keeps it.
- `GoalTrigger` (goal.dfy), `PlayerHand` (player_hand.dfy) and `CardPickup`
  (card_pickup.dfy): one module per script.
- `Arena` (arena.dfy): how the pieces combine. Goal, then serve, then ball
  launch. A streak of goals ending the match on exactly the right goal. A
  paddle touch choosing which hand a pickup fills.

Behaviour the model follows because the code does it:

- The serve after a goal goes towards the side that **scored**:
  `pendingServeToRight = rightDelta > 0`. The comment above that line says
  "towards the side that conceded".
- `ResetBall` does not clear `LastHitter`. A new serve keeps the previous
  rally's last hitter.
- `OnScore` after the match is over still adds the points. It reports game
  over again and cancels the serve again.
- When both scores reach the target in one call, Left is reported as the
  winner.
- `SetScores` neither runs the win check nor cancels a pending serve.
- No setting is validated (`pointsToWin <= 0`, `maxSpeed < startSpeed` and a
  negative `speedIncreasePerHit` are all accepted). The contracts state
  explicitly which of their conclusions need, for example,
  `0 <= speedIncreasePerHit`.

## Model

| member | source | states |
|---|---|---|
| `BallRules.HitterAfter` | Assets/Scripts/Ball.cs:68-69 | the player paddle makes Left the last hitter and the AI paddle makes Right; any other tag (walls) leaves it unchanged |
| `BallRules.WallsKeepHitter` | Assets/Scripts/Ball.cs:68-69 | any run of collisions with non-paddle colliders leaves the last hitter as it was |
| `BallRules.LastPaddleDecides` | Assets/Scripts/Ball.cs:68-69 | after any run of collisions, the last hitter is the side of the most recent paddle touch, whatever came before it and however many wall bounces follow |
| `BallRules.HitFactor` | Assets/Scripts/Ball.cs:94-97 | the aim is in [-1, 1]. A zero-height paddle gives +1 when the ball is above its centre and -1 when below, as the clamped float infinity does. It is 0 when the ball is level with the centre. For a positive height it is +1 at or above the top edge and -1 at or below the bottom edge. In between it is exactly the offset divided by the half-height |
| `BallRules.FloorVx` | Assets/Scripts/Ball.cs:78 | the new horizontal part has magnitude max(\|vx\|, 0.6), so at least 0.6. It is positive exactly when the old one was >= 0, because the engine's sign of zero is +1. It is unchanged when already at least 0.6 in magnitude |
| `BallRules.TargetSpeed` | Assets/Scripts/Ball.cs:80 | the post-hit speed never exceeds maxSpeed. It is the reported speed plus the increase, or maxSpeed. It is exactly the sum when that fits under the cap. It is never below the reported speed when that was within the cap and the increase is non-negative |
| `BallRules.HitIntensity` | Assets/Scripts/Ball.cs:84-85 | the hit-sound intensity lies in [0, 1]. It is 0 up to speed 2 and 1 from speed 14 on |
| `BallRules.ResetBall` | Assets/Scripts/Ball.cs:50-60 | the ball is back at its spawn point with speed factor startSpeed, aimed rightwards (positive horizontal part of the aim) exactly when asked. Its vertical part is the drawn value, at most 0.6 and smaller than its horizontal part. The last hitter, the settings and the spawn point are untouched |
| `BallRules.Enable` | Assets/Scripts/Ball.cs:30-60 | a ball entering the scene spawns where it stands, has no last hitter, and keeps its inspector settings. It is already served with speed factor startSpeed, aimed rightwards exactly when the drawn direction says so, using the drawn vertical part, which is at most 0.6 and smaller than the horizontal part |
| `BallRules.OnCollisionEnter` | Assets/Scripts/Ball.cs:65-89 | the last hitter follows the tag rule. Position, settings and spawn point never change. A non-paddle collision leaves the velocity alone and plays no hit sound. A paddle hit aims the ball at (FloorVx(pre.x), HitFactor + jitter) and scales it to TargetSpeed(preSpeed, speedIncreasePerHit, maxSpeed). So the aim keeps the sign of that velocity's horizontal part with magnitude at least 0.6, and its vertical part is bounded by 1 + randomBounceY. The speed is capped by maxSpeed and never drops below an in-cap reported speed. The hit intensity is HitIntensity of the post-hit speed magnitude, in [0, 1] |
| `BallRules.SpeedRampClosedForm` | Assets/Scripts/Ball.cs:80 | after n paddle hits from speed s <= maxSpeed, with no speed lost in between, the speed is min(s + n * increase, maxSpeed). The cap holds at every hit |
| `BallRules.HitFactorMonotone` | Assets/Scripts/Ball.cs:94-97 | hitting higher on the paddle never aims the ball lower |
| `BallRules.FloorVxIdempotent` | Assets/Scripts/Ball.cs:78 | applying the horizontal floor twice gives the same value as applying it once |
| `BallRules.HitIntensityMonotone` | Assets/Scripts/Ball.cs:84-85 | a faster ball never gives a quieter hit sound |
| `GameManager.Wrap32` | Assets/Scripts/GameManager.cs:60-61 | 32-bit score addition: a sum in range is kept as it is, and any sum is kept modulo 2^32 |
| `GameManager.NewMatch` | Assets/Scripts/GameManager.cs:32-37 | a new scene starts at 0-0 with no serve pending |
| `GameManager.OnScore` | Assets/Scripts/GameManager.cs:55-95 | each score moves by its delta, modulo 2^32 and exactly when there is no overflow. The game-over branch is taken iff a score is at or above the target afterwards, and Left is reported when it has reached the target. Game over leaves no serve pending. Otherwise exactly one serve is pending, replacing any earlier one, and it goes right iff rightDelta > 0 |
| `GameManager.FireServe` | Assets/Scripts/GameManager.cs:93-100 | a pending serve fires exactly once. It uses the direction held in pendingServeToRight, which is the one recorded when it was scheduled. Firing clears it and changes nothing else. With nothing pending, nothing fires |
| `GameManager.SetScores` | Assets/Scripts/GameManager.cs:119-124 | loaded scores are max(0, given): a non-negative value is kept and a negative one becomes 0. Nothing else changes, and a pending serve stays pending |
| `GameManager.ScoresAccumulate` | Assets/Scripts/GameManager.cs:60-61 | with non-negative deltas and no overflow, the scores after any goal sequence are the starting scores plus the non-negative totals, so they end no lower than they started |
| `GameManager.GameOverIsSticky` | Assets/Scripts/GameManager.cs:60-86 | once a score has reached the target, every later goal with non-negative deltas takes the game-over branch, the match stays over, and no serve is left pending |
| `GameManager.OverflowReopensMatch` | Assets/Scripts/GameManager.cs:60-68 | a left score at the 32-bit maximum wraps to the minimum on the next point. The finished match then reads as unfinished and a serve is scheduled again |
| `GameManager.LatestServeWins` | Assets/Scripts/GameManager.cs:89-94 | two serve-scheduling goals in a row leave one serve. It fires in the second goal's direction, and a second fire finds nothing |
| `GameManager.ServeFiresAsScheduled` | Assets/Scripts/GameManager.cs:89-100 | a serve scheduled by a goal fires in that goal's direction, even if scores are loaded from a save in between |
| `GoalTrigger.GoalDeltas` | Assets/Scripts/Goal.cs:24-25 | both deltas are 0 or 1 and sum to 1. The right side gains the point exactly for the left goal |
| `GoalTrigger.OnTriggerEnter` | Assets/Scripts/Goal.cs:19-28 | colliders without a rigidbody or without the ball tag score nothing. Otherwise the side opposite the goal gains one point, provided its score is below the 32-bit maximum (beyond it the score wraps, see `GameManager.OnScore`). The other side's score is unchanged, always. Game over happens iff a side is at the target, and the winner is Left exactly when the left score reached it; a match-ending goal cancels the pending serve. A continuing match schedules a serve aimed right exactly for the left goal. The target never changes and the match stays consistent. The result is what `GameManager.OnScore` gives for the goal's points, so its whole contract applies |
| `PlayerHand.TryAdd` | Assets/Scripts/Cards/PlayerHand.cs:13-19 | succeeds iff count < maxCards. A failure leaves the hand unchanged. A success appends the card at the end and keeps the earlier cards, the owner and the capacity. count <= maxCards is preserved |
| `PlayerHand.PlayIndex` | Assets/Scripts/Cards/PlayerHand.cs:34-42 | an index outside the hand does nothing. An index inside hands the card at that index, tagged with the owner, to the effect system. The hand then shrinks by one with cards before the index unchanged and later ones shifted down by one. count <= maxCards is preserved |
| `PlayerHand.PlayIndexRemovesOne` | Assets/Scripts/Cards/PlayerHand.cs:38-39 | putting the played card back at its index restores the hand. As multisets, the hand lost exactly that card |
| `PlayerHand.FirstPressed` | Assets/Scripts/Cards/PlayerHand.cs:26-31 | the result is the lowest digit among 1..6 that was pressed, and none exactly when none of them was pressed |
| `PlayerHand.Update` | Assets/Scripts/Cards/PlayerHand.cs:21-32 | with no keyboard or an empty hand nothing happens. A card is played iff the lowest pressed digit d among 1..6 is at most the hand size, and then the result is exactly `PlayIndex(h, d - 1)`: the card at index d - 1 leaves the hand and goes to the effect system. Otherwise the hand is unchanged |
| `CardPickup.FindHandFor` | Assets/Scripts/Cards/CardPickup.cs:35-40 | the result is the first hand, in the order the engine's object query returns them, whose owner is the given side, and none iff no hand has that owner |
| `CardPickup.OnTriggerEnter` | Assets/Scripts/Cards/CardPickup.cs:14-33 | non-ball tags and bodies without a ball script are ignored. The pickup is collected iff the first hand of the ball's last hitter exists and has room. Collecting appends the card to exactly that hand, keeping its owner and capacity, and leaves every other hand as it was. Not collecting leaves all hands unchanged |
| `CardPickup.FullHandKeepsPickup` | Assets/Scripts/Cards/CardPickup.cs:27-32 | when the target hand is full, the pickup stays and no hand changes |
| `CardPickup.PickupKeepsLimits` | Assets/Scripts/Cards/CardPickup.cs:26-31 | if every hand is within its capacity, they all still are after a pickup |
| `Arena.ServeInternal` | Assets/Scripts/GameManager.cs:100 | the delayed serve clears the pending serve and changes nothing else in the match state. It relaunches the ball from its spawn point with speed factor startSpeed, aimed in the pending direction, keeping the last hitter, the settings and the spawn point. With nothing pending the scene is unchanged |
| `Arena.GoalThenServe` | Assets/Scripts/Goal.cs:24-27 | after a goal in a continuing match, the serve that follows aims the ball rightwards exactly for the left goal (towards the scorer), with speed factor startSpeed. The last hitter is kept, and a second fire does nothing |
| `Arena.GameOverNeverServes` | Assets/Scripts/GameManager.cs:84-86 | after a match-ending goal, the delayed serve never relaunches the ball |
| `Arena.LeftStreakWinsOnTime` | Assets/Scripts/GameManager.cs:60-71 | during a streak of goals for Left (right score below target), each goal serves left until the left score first reaches the target. That exact goal, and every later one, reports Left as winner |
| `Arena.ElevenGoalsWin` | Assets/Scripts/GameManager.cs:32 | with the default target 11, the tenth goal for Left still serves and the eleventh wins the match for Left |
| `Arena.PlayerTouchRoutesPickupLeft` | Assets/Scripts/Cards/CardPickup.cs:26-31 | after the player paddle touches the ball, a pickup the ball collects goes to the first Left-owned hand, appended at its end |

## Left out

- Audio (every `SFX.I?.Play…` call), the score text (`UpdateUI`) and `Debug.Log`: presentation side effects. They do not affect the state.
- The game-over menu and `Time.timeScale = 0`: `OnScore` returns the winner instead of showing it. Replay reloads the scene, which is `NewMatch` again.
- The serve delay (`serveDelay`) and the engine's timer: only "a serve is pending" is modelled, not when it fires.
- `CardEffectSystem.Apply`: a played card is returned as a `Play(owner, card)` record instead. `CardData` is an opaque type parameter.
- Engine physics: rigidbody integration, the reflection the engine applies on contact, and vector normalisation (a square root). The engine supplies the velocity the rigidbody reports when the collision callback runs, after its own contact response, and that velocity's magnitude. An assigned velocity is kept as direction plus magnitude.
- Random draws (`Random.Range`, `Random.value`) are parameters within the engine's documented ranges.
- Singleton bootstrapping (`Awake`/`Instance`) and `FindObjectsOfType`: the scene's hands are given as a sequence, in the order the engine's object query returns them.
- Floating point: `real` replaces 32-bit floats, so rounding, infinities and NaN are not modelled.
- `BallRules.HitFactor`: excludes only a zero-height paddle with the ball exactly level with its centre. There the float division is 0/0, and the clamp passes the NaN through; `real` has no NaN.
- `BallRules.OnCollisionEnter`: inherits that exclusion for paddle contacts, because it calls `HitFactor`.
- `GameManager.ScoresAccumulate`: proved only while no score passes 2^31 - 1. Past that the 32-bit sum wraps to a negative value (`GameManager.OverflowReopensMatch`). Reaching it takes about two billion points, or a save file with such a score.
- `GameManager.GameOverIsSticky`: proved under the same no-overflow hypothesis, for the same reason.
- `GoalTrigger.OnTriggerEnter`: the scoring side's +1 is stated only while that score is below 2^31 - 1; at the maximum the 32-bit sum wraps, which `GameManager.OnScore` states modulo 2^32.
- `BallRules.ResetBall`: states the sign of the aim and the speed factor, not the direction of the final velocity; that is the same only when `startSpeed > 0`, since a negative factor reverses the normalised aim and no setting is validated.
- The ball's position between serves is moved by the engine; a contact reads the position the engine reports, carried in the `Ball` record.
- `PlayerHand.Update`: the keyboard is reduced to the set of digit keys pressed this frame; other keys never play a card.
- Paddle movement (`PaddlePlayer.cs`, `PaddleAI.cs`), menus (`GameOverMenu.cs`, `PauseMenu.cs`), `SaveSystem.cs` and `SFX.cs` are not part of this model.

=== FILE: arena.dfy ===
/** The pieces working together: a goal schedules the serve that the
    coordinator later hands to the ball, a streak of goals ends the match on
    exactly the right goal, and a paddle touch decides whose hand a pickup
    fills. */
module Arena {
  import opened Basics
  import opened BallRules
  import opened Colliders
  import GameManager
  import GoalTrigger
  import PlayerHand
  import CardPickup

  /** The match coordinator together with the ball it serves. */
  datatype Scene = Scene(m: GameManager.Match, ball: Ball)

  /** The delayed serve arriving: the pending serve is consumed and the
      ball is relaunched in the direction the coordinator holds; with no
      serve pending nothing happens. `vy` is the random vertical part of
      the launch. */
  function ServeInternal(s: Scene, vy: real): (r: Scene)
    requires -ServeSpread <= vy <= ServeSpread
    ensures r.m == s.m.(scheduled := None)
    ensures r.ball.cfg == s.ball.cfg && r.ball.spawnPos == s.ball.spawnPos
    ensures s.m.scheduled.None? ==> r == s
    ensures s.m.scheduled.Some? ==>
              && r.ball.position == s.ball.spawnPos
              && r.ball.velocity.speed == s.ball.cfg.startSpeed
              && (r.ball.velocity.aim.x > 0.0 <==> s.m.pendingServeToRight)
              && r.ball.lastHitter == s.ball.lastHitter
    ensures s.m.scheduled.Some? && GameManager.Consistent(s.m) ==>
              (r.ball.velocity.aim.x > 0.0 <==> s.m.scheduled.value)
  {
    var f := GameManager.FireServe(s.m);
    match f.serveToRight
    case None => Scene(f.m, s.ball)
    case Some(toRight) => Scene(f.m, ResetBall(s.ball, toRight, vy))
  }

  /** A ball entering a goal when the match goes on: the serve that follows
      launches the ball at its start speed towards the side that scored
      (right exactly for the left goal), leaves the last hitter alone, and
      fires only once. */
  lemma GoalThenServe(s: Scene, isLeftGoal: bool, other: Collider, vy: real, vy2: real)
    requires -ServeSpread <= vy <= ServeSpread && -ServeSpread <= vy2 <= ServeSpread
    requires GoalTrigger.OnTriggerEnter(s.m, isLeftGoal, other).Some?
    requires GoalTrigger.OnTriggerEnter(s.m, isLeftGoal, other).value.outcome.ServeScheduled?
    ensures var after := ServeInternal(Scene(GoalTrigger.OnTriggerEnter(s.m, isLeftGoal, other).value.m, s.ball), vy);
            && (after.ball.velocity.aim.x > 0.0 <==> isLeftGoal)
            && after.ball.velocity.speed == s.ball.cfg.startSpeed
            && after.ball.lastHitter == s.ball.lastHitter
            && ServeInternal(after, vy2) == after
  {
  }

  /** A goal that ends the match leaves nothing to serve: the ball is not
      relaunched, whatever was pending before. */
  lemma GameOverNeverServes(s: Scene, isLeftGoal: bool, other: Collider, vy: real)
    requires -ServeSpread <= vy <= ServeSpread
    requires GoalTrigger.OnTriggerEnter(s.m, isLeftGoal, other).Some?
    requires GoalTrigger.OnTriggerEnter(s.m, isLeftGoal, other).value.outcome.GameOver?
    ensures var m := GoalTrigger.OnTriggerEnter(s.m, isLeftGoal, other).value.m;
            ServeInternal(Scene(m, s.ball), vy) == Scene(m, s.ball)
  {
  }

  /** `n` copies of the same goal. */
  function Repeat(d: GameManager.Deltas, n: nat): (r: seq<GameManager.Deltas>)
    ensures |r| == n
    ensures forall i | 0 <= i < n :: r[i] == d
  {
    if n == 0 then [] else [d] + Repeat(d, n - 1)
  }

  /** The outcomes of `n` goals in a row into the right goal. */
  function LeftStreak(m: GameManager.Match, n: nat): (r: seq<GameManager.Outcome>)
    ensures |r| == n
  {
    GameManager.Run(m, Repeat(GoalTrigger.GoalDeltas(false), n)).1
  }

  /** A streak of goals into the right goal: the match goes on, serving
      left, until the left score first reaches the target, and ends with
      Left as the winner on exactly that goal, never one goal early or
      late. */
  lemma {:induction false} LeftStreakWinsOnTime(m: GameManager.Match, n: nat)
    requires m.rightScore < m.pointsToWin
    requires m.leftScore + n <= GameManager.MaxInt32
    ensures forall i | 0 <= i < n ::
              LeftStreak(m, n)[i] == if m.leftScore + i + 1 >= m.pointsToWin
                                     then GameManager.GameOver(Left)
                                     else GameManager.ServeScheduled(false)
    decreases n
  {
    if n > 0 {
      var d := GoalTrigger.GoalDeltas(false);
      var goals := Repeat(d, n);
      assert goals[1..] == Repeat(d, n - 1);
      var s := GameManager.OnScore(m, d.left, d.right);
      LeftStreakWinsOnTime(s.m, n - 1);
      assert LeftStreak(m, n) == [s.outcome] + LeftStreak(s.m, n - 1);
    }
  }

  /** With the default target of eleven, ten goals for Left keep the match
      going and the eleventh wins it. */
  lemma ElevenGoalsWin()
    ensures var outcomes := LeftStreak(GameManager.NewMatch(GameManager.DefaultPointsToWin), 11);
            && outcomes[9] == GameManager.ServeScheduled(false)
            && outcomes[10] == GameManager.GameOver(Left)
  {
    LeftStreakWinsOnTime(GameManager.NewMatch(GameManager.DefaultPointsToWin), 11);
  }

  /** A pickup the ball collects right after the player's paddle touched
      it lands in the first left-owned hand. */
  lemma PlayerTouchRoutesPickupLeft<C>(b: Ball, c: Contact, pre: Vec, preSpeed: real, jitter: real,
                                       card: C, hands: seq<PlayerHand.Hand<C>>)
    requires c.tag == PlayerPaddleTag && (c.paddleHeight != 0.0 || b.position.y != c.paddlePos.y)
    requires 0.0 <= preSpeed && preSpeed * preSpeed == pre.x * pre.x + pre.y * pre.y
    requires Abs(jitter) <= Abs(b.cfg.randomBounceY)
    ensures var hit := OnCollisionEnter(b, c, pre, preSpeed, jitter).ball;
            var other := Collider(BallTag, Some(Body(Some(hit))));
            var r := CardPickup.OnTriggerEnter(card, other, hands);
            r.collected ==>
              var i := CardPickup.FindHandFor(hands, Left).value;
              hands[i].owner == Left && r.hands[i].cards == hands[i].cards + [card]
  {
  }
}

=== FILE: ball.dfy ===
/** The ball script: who touched it last, the serve, and the aimed, sped-up
    bounce off a paddle. Engine work (rigidbody integration, the reflection
    the physics engine applies on contact, and the square root inside vector
    normalisation) stays outside. The engine hands in the velocity its
    rigidbody reports when the collision callback runs, already past the
    engine's own contact response, together with that velocity's magnitude.
    A velocity the script assigns is kept as the vector it normalises plus
    the magnitude it scales to. */
module BallRules {
  import opened Basics

  datatype Vec = Vec(x: real, y: real)

  /** A velocity assigned by the script: the rigidbody receives
      `aim.normalized * speed`. */
  datatype Motion = Motion(aim: Vec, speed: real)

  /** The ball's inspector settings. */
  datatype Config = Config(startSpeed: real, speedIncreasePerHit: real, maxSpeed: real, randomBounceY: real)

  const DefaultConfig: Config := Config(10.0, 0.5, 20.0, 0.35)

  /** Floor on the magnitude of the horizontal component after a paddle hit. */
  const MinHorizontal: real := 0.6
  /** The serve's vertical component is drawn from [-ServeSpread, ServeSpread]. */
  const ServeSpread: real := 0.6
  /** Post-hit speeds mapped to the quietest and to the loudest hit sound. */
  const QuietSpeed: real := 2.0
  const LoudSpeed: real := 14.0

  /** The ball: its settings, the spawn point cached on wake-up, the side
      that touched it last, where it is, and the last velocity the script
      gave it. The script itself sets `position` only when it serves; in
      between, the engine moves the ball, and a `Ball` handed to a contact
      carries the position the engine reports at that contact. */
  datatype Ball = Ball(cfg: Config, spawnPos: Vec, lastHitter: Side, position: Vec, velocity: Motion)

  /** One collision as the engine reports it: the other collider's tag, the
      centre of its transform and the height of its bounds. */
  datatype Contact = Contact(tag: string, paddlePos: Vec, paddleHeight: real)

  /** What a collision leaves: the ball, and the intensity handed to the
      hit sound when the collision was with a paddle. */
  datatype Collision = Collision(ball: Ball, hitIntensity: Option<real>)

  // ---------------------------------------------------------------------
  // The engine's scalar helpers, with the engine's own tie-breaks.
  // ---------------------------------------------------------------------

  function Abs(x: real): (r: real) {
    if x < 0.0 then -x else x
  }

  function Max(a: real, b: real): (r: real) {
    if a > b then a else b
  }

  function Min(a: real, b: real): (r: real) {
    if a < b then a else b
  }

  /** The engine's sign: zero counts as positive. */
  function Sign(x: real): (r: real)
    ensures r == 1.0 || r == -1.0
    ensures r == 1.0 <==> x >= 0.0
  {
    if x >= 0.0 then 1.0 else -1.0
  }

  /** The engine's clamp: below `lo` gives `lo`, otherwise above `hi` gives `hi`. */
  function Clamp(v: real, lo: real, hi: real): (r: real)
    ensures lo <= hi ==> lo <= r <= hi
    ensures lo <= v <= hi ==> r == v
  {
    if v < lo then lo else if v > hi then hi else v
  }

  /** The engine's inverse interpolation: where `v` lies between `a` and `b`,
      clamped to [0, 1]; zero when the two ends coincide. */
  function InverseLerp(a: real, b: real, v: real): (r: real)
    ensures 0.0 <= r <= 1.0
  {
    if a != b then Clamp((v - a) / (b - a), 0.0, 1.0) else 0.0
  }

  // ---------------------------------------------------------------------
  // The contact rule, piece by piece.
  // ---------------------------------------------------------------------

  /** The side recorded after a collision with a collider tagged `tag`. */
  function HitterAfter(last: Side, tag: string): (r: Side)
    ensures tag == PlayerPaddleTag ==> r == Left
    ensures tag == AIPaddleTag ==> r == Right
    ensures !IsPaddleTag(tag) ==> r == last
  {
    if tag == PlayerPaddleTag then Left
    else if tag == AIPaddleTag then Right
    else last
  }

  /** The aim signal: the ball's height above the paddle centre as a
      fraction of half the paddle's height, clamped to [-1, 1]. A paddle of
      zero height makes the float quotient an infinity of the offset's sign,
      which the clamp turns into +1 or -1; a ball exactly level with such a
      paddle would make it NaN, which `real` cannot hold. */
  function HitFactor(ballPos: Vec, paddlePos: Vec, paddleHeight: real): (r: real)
    requires paddleHeight != 0.0 || ballPos.y != paddlePos.y
    ensures -1.0 <= r <= 1.0
    ensures paddleHeight == 0.0 ==> r == Sign(ballPos.y - paddlePos.y)
    ensures ballPos.y == paddlePos.y ==> r == 0.0
    ensures paddleHeight > 0.0 && ballPos.y - paddlePos.y >= paddleHeight / 2.0 ==> r == 1.0
    ensures paddleHeight > 0.0 && ballPos.y - paddlePos.y <= -paddleHeight / 2.0 ==> r == -1.0
    ensures paddleHeight > 0.0 && Abs(ballPos.y - paddlePos.y) <= paddleHeight / 2.0 ==>
              r * (paddleHeight / 2.0) == ballPos.y - paddlePos.y
  {
    var offset := ballPos.y - paddlePos.y;
    var half := paddleHeight * 0.5;
    if half == 0.0 then (if offset > 0.0 then 1.0 else -1.0)
    else if half > 0.0 then QuotientBounds(offset, half); Clamp(offset / half, -1.0, 1.0)
    else Clamp(offset / half, -1.0, 1.0)
  }

  /** Dividing by a positive half-height: at least a whole half-height away
      gives at least one in magnitude, and the quotient scales back. */
  lemma QuotientBounds(offset: real, half: real)
    requires 0.0 < half
    ensures (offset / half) * half == offset
    ensures half <= offset ==> 1.0 <= offset / half
    ensures offset <= -half ==> offset / half <= -1.0
  {
  }

  /** The horizontal component after a hit: the reported velocity's sign (zero
      counting as positive) with a magnitude of at least MinHorizontal. */
  function FloorVx(vx: real): (r: real)
    ensures Abs(r) == Max(Abs(vx), MinHorizontal)
    ensures MinHorizontal <= Abs(r)
    ensures r > 0.0 <==> vx >= 0.0
    ensures MinHorizontal <= Abs(vx) ==> r == vx
  {
    Sign(vx) * Max(Abs(vx), MinHorizontal)
  }

  /** The magnitude the bounced velocity is scaled to. */
  function TargetSpeed(preSpeed: real, increase: real, maxSpeed: real): (r: real)
    ensures r <= maxSpeed
    ensures r == preSpeed + increase || r == maxSpeed
    ensures preSpeed + increase <= maxSpeed ==> r == preSpeed + increase
    ensures preSpeed <= maxSpeed && 0.0 <= increase ==> preSpeed <= r
  {
    Min(preSpeed + increase, maxSpeed)
  }

  /** Loudness of the hit sound for a given post-hit speed. */
  function HitIntensity(speed: real): (r: real)
    ensures 0.0 <= r <= 1.0
    ensures speed <= QuietSpeed ==> r == 0.0
    ensures LoudSpeed <= speed ==> r == 1.0
  {
    InverseLerp(QuietSpeed, LoudSpeed, speed)
  }

  // ---------------------------------------------------------------------
  // The ball's operations.
  // ---------------------------------------------------------------------

  /** Back to the spawn point and launched horizontally towards the chosen
      side, with the vertical part `vy` drawn by the engine's random source
      from [-ServeSpread, ServeSpread]. The side that last touched the ball
      is left as it was. */
  function ResetBall(b: Ball, serveToRight: bool, vy: real): (r: Ball)
    requires -ServeSpread <= vy <= ServeSpread
    ensures r.lastHitter == b.lastHitter
    ensures r.cfg == b.cfg && r.spawnPos == b.spawnPos
    ensures r.position == b.spawnPos
    ensures r.velocity.speed == b.cfg.startSpeed
    ensures r.velocity.aim.x > 0.0 <==> serveToRight
    ensures Abs(r.velocity.aim.y) <= ServeSpread < Abs(r.velocity.aim.x)
    ensures r.velocity.aim.y == vy
  {
    b.(position := b.spawnPos,
       velocity := Motion(Vec(if serveToRight then 1.0 else -1.0, vy), b.cfg.startSpeed))
  }

  /** The ball as the scene creates it: spawn point cached from where it
      stands, nobody has touched it, and the first serve (towards a side the
      engine picks at random) already made. */
  function Enable(cfg: Config, pos: Vec, serveToRight: bool, vy: real): (r: Ball)
    requires -ServeSpread <= vy <= ServeSpread
    ensures r.lastHitter == NoSide
    ensures r.position == pos && r.spawnPos == pos
    ensures r.cfg == cfg
    ensures r.velocity.speed == cfg.startSpeed
    ensures r.velocity.aim.x > 0.0 <==> serveToRight
    ensures Abs(r.velocity.aim.y) <= ServeSpread < Abs(r.velocity.aim.x)
    ensures r.velocity.aim.y == vy
  {
    ResetBall(Ball(cfg, pos, NoSide, pos, Motion(Vec(0.0, 0.0), 0.0)), serveToRight, vy)
  }

  /** A collision reported by the engine. `pre` is the velocity the rigidbody
      reports when the collision callback runs, after the engine has already
      resolved the contact, and `preSpeed` its magnitude; `jitter` is
      the random vertical nudge drawn from [-randomBounceY, randomBounceY].
      Only the two paddle tags change the velocity; every tag may change
      nothing but the last hitter. */
  function OnCollisionEnter(b: Ball, c: Contact, pre: Vec, preSpeed: real, jitter: real): (r: Collision)
    requires IsPaddleTag(c.tag) ==> c.paddleHeight != 0.0 || b.position.y != c.paddlePos.y
    requires 0.0 <= preSpeed && preSpeed * preSpeed == pre.x * pre.x + pre.y * pre.y
    requires Abs(jitter) <= Abs(b.cfg.randomBounceY)
    ensures r.ball.lastHitter == HitterAfter(b.lastHitter, c.tag)
    ensures r.ball.cfg == b.cfg && r.ball.spawnPos == b.spawnPos && r.ball.position == b.position
    ensures !IsPaddleTag(c.tag) ==> r.ball.velocity == b.velocity && r.hitIntensity == None
    ensures IsPaddleTag(c.tag) ==>
              && MinHorizontal <= Abs(r.ball.velocity.aim.x)
              && (r.ball.velocity.aim.x > 0.0 <==> pre.x >= 0.0)
              && Abs(r.ball.velocity.aim.y) <= 1.0 + Abs(b.cfg.randomBounceY)
              && r.ball.velocity.speed <= b.cfg.maxSpeed
              && (preSpeed <= b.cfg.maxSpeed && 0.0 <= b.cfg.speedIncreasePerHit ==> preSpeed <= r.ball.velocity.speed)
              && r.hitIntensity.Some?
              && 0.0 <= r.hitIntensity.value <= 1.0
    ensures IsPaddleTag(c.tag) ==>
              && r.ball.velocity.aim
                   == Vec(FloorVx(pre.x), HitFactor(b.position, c.paddlePos, c.paddleHeight) + jitter)
              && r.ball.velocity.speed == TargetSpeed(preSpeed, b.cfg.speedIncreasePerHit, b.cfg.maxSpeed)
              && r.hitIntensity == Some(HitIntensity(Abs(r.ball.velocity.speed)))
  {
    var hitter := HitterAfter(b.lastHitter, c.tag);
    if IsPaddleTag(c.tag) then
      var y := HitFactor(b.position, c.paddlePos, c.paddleHeight);
      var aim := Vec(FloorVx(pre.x), y + jitter);
      var speed := TargetSpeed(preSpeed, b.cfg.speedIncreasePerHit, b.cfg.maxSpeed);
      // the aim is never the zero vector, so the assigned velocity's
      // magnitude is exactly |speed|
      Collision(b.(lastHitter := hitter, velocity := Motion(aim, speed)), Some(HitIntensity(Abs(speed))))
    else
      Collision(b.(lastHitter := hitter), None)
  }

  // ---------------------------------------------------------------------
  // Properties relating several calls.
  // ---------------------------------------------------------------------

  /** A rally with `n` paddle hits and no speed lost in between: each hit
      starts from the speed the previous one produced. */
  function SpeedAfterHits(s: real, increase: real, maxSpeed: real, n: nat): (r: real)
    decreases n
  {
    if n == 0 then s else TargetSpeed(SpeedAfterHits(s, increase, maxSpeed, n - 1), increase, maxSpeed)
  }

  /** The speed ramp is linear until it meets the cap and then stays there:
      the cap holds at every hit, not only once per rally. */
  lemma {:induction false} SpeedRampClosedForm(s: real, increase: real, maxSpeed: real, n: nat)
    requires s <= maxSpeed && 0.0 <= increase
    ensures SpeedAfterHits(s, increase, maxSpeed, n) == Min(s + n as real * increase, maxSpeed)
  {
    if n > 0 {
      SpeedRampClosedForm(s, increase, maxSpeed, n - 1);
      assert (n - 1) as real * increase + increase == n as real * increase;
    }
  }

  /** Aiming is monotone: hitting the ball further up the paddle never
      sends it lower. */
  lemma HitFactorMonotone(lower: Vec, upper: Vec, paddlePos: Vec, paddleHeight: real)
    requires 0.0 < paddleHeight && lower.y <= upper.y
    ensures HitFactor(lower, paddlePos, paddleHeight) <= HitFactor(upper, paddlePos, paddleHeight)
  {
    var h := paddleHeight * 0.5;
    assert (lower.y - paddlePos.y) / h <= (upper.y - paddlePos.y) / h by {
      assert (upper.y - paddlePos.y) / h - (lower.y - paddlePos.y) / h == (upper.y - lower.y) / h;
    }
  }

  /** The last hitter after the ball has collided with colliders tagged
      `tags`, in order. */
  function HitterAfterAll(last: Side, tags: seq<string>): (r: Side)
    decreases |tags|
  {
    if tags == [] then last else HitterAfterAll(HitterAfter(last, tags[0]), tags[1..])
  }

  /** Walls and other non-paddle colliders never change the last hitter. */
  lemma {:induction false} WallsKeepHitter(last: Side, tags: seq<string>)
    requires forall j | 0 <= j < |tags| :: !IsPaddleTag(tags[j])
    ensures HitterAfterAll(last, tags) == last
    decreases |tags|
  {
    if tags != [] {
      WallsKeepHitter(HitterAfter(last, tags[0]), tags[1..]);
    }
  }

  /** The most recent paddle touch decides the last hitter, whatever came
      before it and however many wall bounces follow. */
  lemma {:induction false} LastPaddleDecides(last: Side, tags: seq<string>, k: nat)
    requires k < |tags| && IsPaddleTag(tags[k])
    requires forall j | k < j < |tags| :: !IsPaddleTag(tags[j])
    ensures HitterAfterAll(last, tags) == if tags[k] == PlayerPaddleTag then Left else Right
    decreases |tags|
  {
    if k == 0 {
      WallsKeepHitter(HitterAfter(last, tags[0]), tags[1..]);
    } else {
      LastPaddleDecides(HitterAfter(last, tags[0]), tags[1..], k - 1);
    }
  }

  /** Flooring twice is flooring once. */
  lemma FloorVxIdempotent(vx: real)
    ensures FloorVx(FloorVx(vx)) == FloorVx(vx)
  {
  }

  /** Louder sound for a faster ball. */
  lemma HitIntensityMonotone(s1: real, s2: real)
    requires s1 <= s2
    ensures HitIntensity(s1) <= HitIntensity(s2)
  {
  }
}

=== FILE: basics.dfy ===
/** Shared vocabulary of the game: optional values, the two sides of the
    arena, and the collider tags the scripts compare against. */
module Basics {

  /** The usual Some/None wrapper, standing in for a null reference or for
      "nothing happened". */
  datatype Option<T> = None | Some(value: T)

  /** Which side last touched the ball, or which side owns a hand of cards.
      `NoSide` is the engine enum's `None`: nobody has touched the ball yet. */
  datatype Side = NoSide | Left | Right

  /** Tag carried by the ball's collider. */
  const BallTag: string := "Ball"
  /** Tag carried by the left (human) paddle. */
  const PlayerPaddleTag: string := "PlayerPaddle"
  /** Tag carried by the right (computer) paddle. */
  const AIPaddleTag: string := "AIPaddle"

  predicate IsPaddleTag(tag: string) {
    tag == PlayerPaddleTag || tag == AIPaddleTag
  }
}

=== FILE: card_pickup.dfy ===
/** A card lying in the arena: the ball passing through it gives the card
    to the hand of the side that last touched the ball, if that hand has
    room; only then does the pickup disappear. */
module CardPickup {
  import opened Basics
  import opened Colliders
  import opened PlayerHand
  import BallRules

  /** What a trigger event leaves: the hands, and whether the pickup was
      collected (and so removed from the arena). */
  datatype Pickup<C> = Pickup(hands: seq<Hand<C>>, collected: bool)

  /** The first hand owned by `side`, in the order the engine's object
      query returns the hands. */
  function FindHandFor<C>(hands: seq<Hand<C>>, side: Side): (r: Option<nat>)
    ensures r.Some? ==> r.value < |hands| && hands[r.value].owner == side
    ensures r.Some? ==> forall j | 0 <= j < r.value :: hands[j].owner != side
    ensures r.None? ==> forall j | 0 <= j < |hands| :: hands[j].owner != side
    decreases |hands|
  {
    if hands == [] then None
    else if hands[0].owner == side then Some(0)
    else
      match FindHandFor(hands[1..], side)
      case None => None
      case Some(i) => Some(i + 1)
  }

  /** The ball script on the other collider's rigidbody, if it has both. */
  function BallOf(other: Collider): (r: Option<BallRules.Ball>) {
    match other.attachedRigidbody
    case None => None
    case Some(body) => body.ball
  }

  /** The hand a ball would deliver this card to: the first hand owned by
      the ball's last hitter. */
  function TargetOf<C>(hands: seq<Hand<C>>, other: Collider): (r: Option<nat>) {
    match BallOf(other)
    case None => None
    case Some(ball) => FindHandFor(hands, ball.lastHitter)
  }

  /** The trigger event. Anything not tagged as the ball, or without a ball
      script on its rigidbody, is ignored. Otherwise the card goes to the
      target hand if that hand accepts it; only a successful add collects
      the pickup, and a full or missing hand leaves everything as it was. */
  function OnTriggerEnter<C>(card: C, other: Collider, hands: seq<Hand<C>>): (r: Pickup<C>)
    ensures other.tag != BallTag || BallOf(other).None? ==> r == Pickup(hands, false)
    ensures |r.hands| == |hands|
    ensures !r.collected ==> r.hands == hands
    ensures r.collected <==>
              && other.tag == BallTag
              && TargetOf(hands, other).Some?
              && |hands[TargetOf(hands, other).value].cards| < hands[TargetOf(hands, other).value].maxCards
    ensures r.collected ==>
              var i := TargetOf(hands, other).value;
              && r.hands[i] == hands[i].(cards := hands[i].cards + [card])
              && (forall j | 0 <= j < |hands| && j != i :: r.hands[j] == hands[j])
  {
    if other.tag != BallTag then Pickup(hands, false)
    else
      match TargetOf(hands, other)
      case None => Pickup(hands, false)
      case Some(i) =>
        var added := TryAdd(hands[i], card);
        if added.ok then Pickup(hands[i := added.hand], true) else Pickup(hands, false)
  }

  /** A full target hand refuses the card, so the pickup stays and no hand
      changes. */
  lemma FullHandKeepsPickup<C>(card: C, other: Collider, hands: seq<Hand<C>>)
    requires other.tag == BallTag && TargetOf(hands, other).Some?
    requires |hands[TargetOf(hands, other).value].cards| >= hands[TargetOf(hands, other).value].maxCards
    ensures OnTriggerEnter(card, other, hands) == Pickup(hands, false)
  {
  }

  /** Collecting keeps every hand within its capacity. */
  lemma PickupKeepsLimits<C>(card: C, other: Collider, hands: seq<Hand<C>>)
    requires forall j | 0 <= j < |hands| :: WithinLimit(hands[j])
    ensures var r := OnTriggerEnter(card, other, hands);
            forall j | 0 <= j < |r.hands| :: WithinLimit(r.hands[j])
  {
  }
}

=== FILE: colliders.dfy ===
/** The engine's view of the other collider in a trigger or collision
    event, as far as the scripts look at it. */
module Colliders {
  import opened Basics
  import BallRules

  /** A rigidbody, carrying the ball script when it is the ball's body. */
  datatype Body = Body(ball: Option<BallRules.Ball>)

  /** The other collider: its tag and the rigidbody it is attached to, if any. */
  datatype Collider = Collider(tag: string, attachedRigidbody: Option<Body>)
}

=== FILE: game_manager.dfy ===
/** The match coordinator: two scores, the win check, and the single
    delayed serve that follows a goal. The engine's cancellable delayed call
    is modelled as an optional pending serve: scheduling replaces it,
    cancelling clears it, and firing consumes it. */
module GameManager {
  import opened Basics

  const MinInt32: int := -0x8000_0000
  const MaxInt32: int := 0x7fff_ffff

  /** The engine's 32-bit signed integer. */
  type Int32 = x: int | -0x8000_0000 <= x <= 0x7fff_ffff

  /** Two's-complement wrap-around of a sum that left the 32-bit range. */
  function Wrap32(x: int): (r: Int32)
    ensures MinInt32 <= x <= MaxInt32 ==> r == x
    ensures (x - r) % 0x1_0000_0000 == 0
  {
    (x + 0x8000_0000) % 0x1_0000_0000 - 0x8000_0000
  }

  const DefaultPointsToWin: Int32 := 11

  /** The coordinator's state. `scheduled` is the pending delayed serve:
      `Some(d)` while a serve is scheduled and has neither fired nor been
      cancelled, `d` being the direction recorded when it was scheduled.
      The serve itself, when it fires, reads `pendingServeToRight`. */
  datatype Match = Match(
    pointsToWin: Int32,
    leftScore: Int32,
    rightScore: Int32,
    pendingServeToRight: bool,
    scheduled: Option<bool>)

  /** The points one goal awards to each side. */
  datatype Deltas = Deltas(left: Int32, right: Int32)

  /** What a goal led to: the end of the match with its winner, or a serve
      scheduled towards a side. */
  datatype Outcome = GameOver(winner: Side) | ServeScheduled(toRight: bool)

  datatype Scored = Scored(m: Match, outcome: Outcome)

  /** The delayed serve arriving: the state afterwards and the direction
      served, if a serve was pending. */
  datatype Fired = Fired(m: Match, serveToRight: Option<bool>)

  /** Some side has reached the target. */
  predicate Over(m: Match) {
    m.leftScore >= m.pointsToWin || m.rightScore >= m.pointsToWin
  }

  /** A pending serve will go in the direction recorded when it was scheduled. */
  predicate Consistent(m: Match) {
    m.scheduled.Some? ==> m.scheduled.value == m.pendingServeToRight
  }

  /** A freshly loaded scene: nothing scored, nothing scheduled. */
  function NewMatch(pointsToWin: Int32): (m: Match)
    ensures m.pointsToWin == pointsToWin
    ensures m.leftScore == 0 && m.rightScore == 0
    ensures m.scheduled == None && Consistent(m)
  {
    Match(pointsToWin, 0, 0, false, None)
  }

  /** A goal: both scores move by their deltas (with 32-bit wrap-around),
      then the win check runs, and only if nobody has won is the next serve
      scheduled, replacing any serve still pending. The serve goes right
      exactly when the right side gained points, that is towards the side
      that scored. When both sides are at the target, Left is reported. */
  function OnScore(m: Match, leftDelta: Int32, rightDelta: Int32): (r: Scored)
    ensures r.m.pointsToWin == m.pointsToWin
    ensures (r.m.leftScore - (m.leftScore + leftDelta)) % 0x1_0000_0000 == 0
    ensures (r.m.rightScore - (m.rightScore + rightDelta)) % 0x1_0000_0000 == 0
    ensures MinInt32 <= m.leftScore + leftDelta <= MaxInt32 ==> r.m.leftScore == m.leftScore + leftDelta
    ensures MinInt32 <= m.rightScore + rightDelta <= MaxInt32 ==> r.m.rightScore == m.rightScore + rightDelta
    ensures r.outcome.GameOver? <==> Over(r.m)
    ensures r.outcome == GameOver(Left) <==> r.m.leftScore >= m.pointsToWin
    ensures r.outcome == GameOver(Right) <==> r.m.leftScore < m.pointsToWin <= r.m.rightScore
    ensures r.outcome.GameOver? ==> r.m.scheduled == None && r.m.pendingServeToRight == m.pendingServeToRight
    ensures r.outcome.ServeScheduled? ==>
              && r.outcome.toRight == (rightDelta > 0)
              && r.m.scheduled == Some(rightDelta > 0)
              && r.m.pendingServeToRight == (rightDelta > 0)
    ensures Consistent(r.m)
  {
    var left := Wrap32(m.leftScore + leftDelta);
    var right := Wrap32(m.rightScore + rightDelta);
    var leftWon := left >= m.pointsToWin;
    var rightWon := right >= m.pointsToWin;
    var scored := m.(leftScore := left, rightScore := right);
    if leftWon || rightWon then
      Scored(scored.(scheduled := None), GameOver(if leftWon then Left else Right))
    else
      var toRight := rightDelta > 0;
      Scored(scored.(pendingServeToRight := toRight, scheduled := Some(toRight)), ServeScheduled(toRight))
  }

  /** The delayed serve arriving. A pending serve is consumed and goes in
      the direction held in `pendingServeToRight`; with nothing pending,
      nothing happens. */
  function FireServe(m: Match): (r: Fired)
    ensures r.m.scheduled == None
    ensures r.m.(scheduled := m.scheduled) == m
    ensures r.serveToRight.Some? <==> m.scheduled.Some?
    ensures r.serveToRight.Some? ==> r.serveToRight.value == m.pendingServeToRight
    ensures Consistent(m) ==> r.serveToRight == m.scheduled
  {
    match m.scheduled
    case None => Fired(m, None)
    case Some(_) => Fired(m.(scheduled := None), Some(m.pendingServeToRight))
  }

  /** The engine's integer maximum (the ball's `Max` is its real-valued twin). */
  function MaxInt(a: Int32, b: Int32): (r: Int32) {
    if a > b then a else b
  }

  /** Scores loaded from a save: negative values become zero. Nothing else
      changes; in particular a pending serve stays pending and no win check
      runs. */
  function SetScores(m: Match, left: Int32, right: Int32): (r: Match)
    ensures 0 <= r.leftScore && 0 <= r.rightScore
    ensures 0 <= left ==> r.leftScore == left
    ensures 0 <= right ==> r.rightScore == right
    ensures left < 0 ==> r.leftScore == 0
    ensures right < 0 ==> r.rightScore == 0
    ensures r.(leftScore := m.leftScore, rightScore := m.rightScore) == m
  {
    m.(leftScore := MaxInt(0, left), rightScore := MaxInt(0, right))
  }

  // ---------------------------------------------------------------------
  // A sequence of goals.
  // ---------------------------------------------------------------------

  /** Several goals in a row: the final state and each goal's outcome. */
  function Run(m: Match, goals: seq<Deltas>): (r: (Match, seq<Outcome>))
    ensures |r.1| == |goals|
    decreases |goals|
  {
    if goals == [] then (m, [])
    else
      var s := OnScore(m, goals[0].left, goals[0].right);
      var rest := Run(s.m, goals[1..]);
      (rest.0, [s.outcome] + rest.1)
  }

  function TotalLeft(goals: seq<Deltas>): (r: int)
    decreases |goals|
  {
    if goals == [] then 0 else goals[0].left + TotalLeft(goals[1..])
  }

  function TotalRight(goals: seq<Deltas>): (r: int)
    decreases |goals|
  {
    if goals == [] then 0 else goals[0].right + TotalRight(goals[1..])
  }

  predicate NonNegative(goals: seq<Deltas>) {
    forall i | 0 <= i < |goals| :: 0 <= goals[i].left && 0 <= goals[i].right
  }

  lemma {:induction false} TotalsNonNegative(goals: seq<Deltas>)
    requires NonNegative(goals)
    ensures 0 <= TotalLeft(goals) && 0 <= TotalRight(goals)
    decreases |goals|
  {
    if goals != [] {
      TotalsNonNegative(goals[1..]);
    }
  }

  /** Scores only go up: with non-negative deltas and no overflow, every
      goal leaves each score at least where it was, and the final scores
      are the starting ones plus the totals. */
  lemma {:induction false} ScoresAccumulate(m: Match, goals: seq<Deltas>)
    requires NonNegative(goals)
    requires m.leftScore + TotalLeft(goals) <= MaxInt32
    requires m.rightScore + TotalRight(goals) <= MaxInt32
    ensures Run(m, goals).0.leftScore == m.leftScore + TotalLeft(goals)
    ensures Run(m, goals).0.rightScore == m.rightScore + TotalRight(goals)
    decreases |goals|
  {
    if goals != [] {
      TotalsNonNegative(goals[1..]);
      var s := OnScore(m, goals[0].left, goals[0].right);
      ScoresAccumulate(s.m, goals[1..]);
    }
  }

  /** Once a side has reached the target, every later goal with
      non-negative deltas ends in the game-over branch again, and no serve
      is left pending. */
  lemma {:induction false} GameOverIsSticky(m: Match, goals: seq<Deltas>)
    requires Over(m)
    requires NonNegative(goals)
    requires m.leftScore + TotalLeft(goals) <= MaxInt32
    requires m.rightScore + TotalRight(goals) <= MaxInt32
    ensures Over(Run(m, goals).0)
    ensures goals != [] ==> Run(m, goals).0.scheduled == None
    ensures forall i | 0 <= i < |goals| :: Run(m, goals).1[i].GameOver?
    decreases |goals|
  {
    if goals != [] {
      TotalsNonNegative(goals[1..]);
      var s := OnScore(m, goals[0].left, goals[0].right);
      assert s.outcome.GameOver?;
      GameOverIsSticky(s.m, goals[1..]);
      var rest := Run(s.m, goals[1..]);
      assert Run(m, goals).1 == [s.outcome] + rest.1;
      if goals[1..] == [] {
        assert Run(m, goals).0 == s.m;
      }
    }
  }

  /** The no-overflow hypotheses above are needed: a score at the 32-bit
      maximum wraps to the minimum on the next point, the finished match
      reads as unfinished, and a serve is scheduled again. */
  lemma OverflowReopensMatch()
    ensures var m := Match(DefaultPointsToWin, MaxInt32, 0, false, None);
            && Over(m)
            && OnScore(m, 1, 0).m.leftScore == MinInt32
            && OnScore(m, 1, 0).outcome == ServeScheduled(false)
  {
  }

  /** Scheduling supersedes: two goals that each schedule a serve leave
      exactly one pending, and it fires once, in the second goal's
      direction. */
  lemma LatestServeWins(m: Match, first: Deltas, second: Deltas)
    requires OnScore(m, first.left, first.right).outcome.ServeScheduled?
    requires OnScore(OnScore(m, first.left, first.right).m, second.left, second.right).outcome.ServeScheduled?
    ensures var m2 := OnScore(OnScore(m, first.left, first.right).m, second.left, second.right).m;
            && FireServe(m2).serveToRight == Some(second.right > 0)
            && FireServe(FireServe(m2).m).serveToRight == None
  {
  }

  /** A serve scheduled by a goal fires in the direction that goal chose,
      even when scores are loaded from a save in between. */
  lemma ServeFiresAsScheduled(m: Match, d: Deltas, left: Int32, right: Int32)
    requires OnScore(m, d.left, d.right).outcome.ServeScheduled?
    ensures FireServe(OnScore(m, d.left, d.right).m).serveToRight == Some(d.right > 0)
    ensures FireServe(SetScores(OnScore(m, d.left, d.right).m, left, right)).serveToRight == Some(d.right > 0)
  {
  }
}

=== FILE: goal.dfy ===
/** A goal trigger behind one paddle: when the ball enters it, the side
    opposite that goal gains a point and the match coordinator is told. */
module GoalTrigger {
  import opened Basics
  import opened Colliders
  import GameManager

  /** The points awarded by a goal: the left goal gives the right side a
      point, the right goal gives the left side one. */
  function GoalDeltas(isLeftGoal: bool): (d: GameManager.Deltas)
    ensures 0 <= d.left <= 1 && 0 <= d.right <= 1
    ensures d.left + d.right == 1
    ensures d.right == 1 <==> isLeftGoal
  {
    if isLeftGoal then GameManager.Deltas(0, 1) else GameManager.Deltas(1, 0)
  }

  /** The trigger event. Colliders without a rigidbody, or not tagged as
      the ball, are ignored; otherwise the goal's points go to the
      coordinator. When the match goes on, the next serve heads towards the
      side that just scored: right exactly when this is the left goal. */
  function OnTriggerEnter(m: GameManager.Match, isLeftGoal: bool, other: Collider): (r: Option<GameManager.Scored>)
    ensures r.None? <==> other.attachedRigidbody.None? || other.tag != BallTag
    ensures r.Some? && isLeftGoal ==> r.value.m.leftScore == m.leftScore
    ensures r.Some? && !isLeftGoal ==> r.value.m.rightScore == m.rightScore
    ensures r.Some? && isLeftGoal && m.rightScore < GameManager.MaxInt32 ==>
              r.value.m.rightScore == m.rightScore + 1
    ensures r.Some? && !isLeftGoal && m.leftScore < GameManager.MaxInt32 ==>
              r.value.m.leftScore == m.leftScore + 1
    ensures r.Some? ==> (r.value.outcome.GameOver? <==> GameManager.Over(r.value.m))
    ensures r.Some? && r.value.outcome.ServeScheduled? ==>
              && r.value.outcome.toRight == isLeftGoal
              && r.value.m.scheduled == Some(isLeftGoal)
              && r.value.m.pendingServeToRight == isLeftGoal
    ensures r.Some? && r.value.outcome.GameOver? ==>
              && (r.value.outcome.winner == Left <==> r.value.m.leftScore >= m.pointsToWin)
              && r.value.m.scheduled == None
              && r.value.m.pendingServeToRight == m.pendingServeToRight
    ensures r.Some? ==> r.value.m.pointsToWin == m.pointsToWin && GameManager.Consistent(r.value.m)
    ensures r.Some? ==>
              r.value == GameManager.OnScore(m, GoalDeltas(isLeftGoal).left, GoalDeltas(isLeftGoal).right)
  {
    if other.attachedRigidbody.None? || other.tag != BallTag then None
    else
      var d := GoalDeltas(isLeftGoal);
      Some(GameManager.OnScore(m, d.left, d.right))
  }
}

=== FILE: player_hand.dfy ===
/** A side's hand of collected cards: a bounded list that grows at the end
    and gives up a card at a chosen position, played with the digit keys. */
module PlayerHand {
  import opened Basics

  /** A hand: the side it belongs to, its capacity and its cards in
      collection order. Cards are opaque. */
  datatype Hand<C> = Hand(owner: Side, maxCards: int, cards: seq<C>)

  const DefaultMaxCards: int := 6

  /** A card handed to the card-effect system, tagged with its owner. */
  datatype Play<C> = Play(owner: Side, card: C)

  datatype Added<C> = Added(hand: Hand<C>, ok: bool)

  datatype Played<C> = Played(hand: Hand<C>, play: Option<Play<C>>)

  /** The hand holds no more cards than its capacity. */
  predicate WithinLimit<C>(h: Hand<C>) {
    |h.cards| <= h.maxCards
  }

  /** Adds a card at the end when there is room; a full hand refuses it
      and stays as it was. */
  function TryAdd<C>(h: Hand<C>, card: C): (r: Added<C>)
    ensures r.ok <==> |h.cards| < h.maxCards
    ensures !r.ok ==> r.hand == h
    ensures r.ok ==>
              && r.hand.owner == h.owner && r.hand.maxCards == h.maxCards
              && |r.hand.cards| == |h.cards| + 1
              && r.hand.cards[..|h.cards|] == h.cards
              && r.hand.cards[|h.cards|] == card
    ensures WithinLimit(h) ==> WithinLimit(r.hand)
  {
    if |h.cards| >= h.maxCards then Added(h, false)
    else Added(h.(cards := h.cards + [card]), true)
  }

  /** Plays the card at `idx`: an index outside the hand does nothing;
      otherwise that card leaves the hand, the others close up in order,
      and the card goes to the effect system with the hand's owner. */
  function PlayIndex<C>(h: Hand<C>, idx: int): (r: Played<C>)
    ensures !(0 <= idx < |h.cards|) ==> r == Played(h, None)
    ensures 0 <= idx < |h.cards| ==>
              && r.play == Some(Play(h.owner, h.cards[idx]))
              && r.hand.owner == h.owner && r.hand.maxCards == h.maxCards
              && |r.hand.cards| == |h.cards| - 1
              && (forall j | 0 <= j < idx :: r.hand.cards[j] == h.cards[j])
              && (forall j | idx <= j < |r.hand.cards| :: r.hand.cards[j] == h.cards[j + 1])
    ensures WithinLimit(h) ==> WithinLimit(r.hand)
  {
    if idx < 0 || idx >= |h.cards| then Played(h, None)
    else Played(h.(cards := h.cards[..idx] + h.cards[idx + 1..]), Some(Play(h.owner, h.cards[idx])))
  }

  /** Playing a card is undone by putting it back where it was, and the
      hand lost exactly that one card. */
  lemma PlayIndexRemovesOne<C>(h: Hand<C>, idx: int)
    requires 0 <= idx < |h.cards|
    ensures var r := PlayIndex(h, idx);
            && r.hand.cards[..idx] + [h.cards[idx]] + r.hand.cards[idx..] == h.cards
            && multiset(r.hand.cards) + multiset{h.cards[idx]} == multiset(h.cards)
  {
  }

  /** The lowest digit from `d` up to 6 pressed this frame, if any. */
  function FirstPressedFrom(pressed: set<int>, d: int): (r: Option<int>)
    requires 1 <= d <= 7
    ensures r.Some? ==> d <= r.value <= 6 && r.value in pressed
    ensures r.Some? ==> forall e | d <= e < r.value :: e !in pressed
    ensures r.None? ==> forall e | d <= e <= 6 :: e !in pressed
    decreases 7 - d
  {
    if d == 7 then None
    else if d in pressed then Some(d)
    else FirstPressedFrom(pressed, d + 1)
  }

  /** The digit keys 1 to 6 are checked in order; the first one pressed wins. */
  function FirstPressed(pressed: set<int>): (r: Option<int>)
    ensures r.Some? ==> 1 <= r.value <= 6 && r.value in pressed
    ensures r.Some? ==> forall e | 1 <= e < r.value :: e !in pressed
    ensures r.None? ==> forall e | 1 <= e <= 6 :: e !in pressed
  {
    FirstPressedFrom(pressed, 1)
  }

  /** One frame of keyboard handling. `keyboard` is the set of digit keys
      pressed this frame, or None when no keyboard is present. With no
      keyboard or an empty hand nothing happens; otherwise the lowest
      pressed digit among 1..6 plays the card at position digit - 1, which
      does nothing when the hand is shorter than that. */
  function Update<C>(h: Hand<C>, keyboard: Option<set<int>>): (r: Played<C>)
    ensures keyboard.None? || |h.cards| == 0 ==> r == Played(h, None)
    ensures r.play.Some? <==>
              && keyboard.Some?
              && FirstPressed(keyboard.value).Some?
              && FirstPressed(keyboard.value).value <= |h.cards|
    ensures r.play.None? ==> r.hand == h
    ensures r.play.Some? ==> r == PlayIndex(h, FirstPressed(keyboard.value).value - 1)
    ensures r.play.Some? ==>
              && r.play.value == Play(h.owner, h.cards[FirstPressed(keyboard.value).value - 1])
              && |r.hand.cards| == |h.cards| - 1
    ensures WithinLimit(h) ==> WithinLimit(r.hand)
  {
    if keyboard.None? || |h.cards| == 0 then Played(h, None)
    else
      match FirstPressed(keyboard.value)
      case None => Played(h, None)
      case Some(d) => PlayIndex(h, d - 1)
  }
}
